=== FILE: README.md ===
# Champion generation service — a Dafny model

This project models the decision core of an image-to-3D generation service.
A client uploads an image. The service generates two candidate Gaussian-splat
PLY payloads: a multi-view candidate under seed s1 and a single-view
candidate under seed s2, with s1 ≠ s2. An external judge is asked once which
candidate is better, and the winner's bytes and seed are returned. The bytes
are either streamed in 1 MiB chunks, compressed to SPZ, or base64-encoded
into a JSON field.

Modules, one per concern:

- `Common` (common.dfy): byte strings, `Option`, `Result`, the Python
  exceptions the code raises (as values), and `Str`, Python's `str(exc)`.
- `Decimal` (decimal.dfy): `str(int)` as used for header values, and a
  parser that reads it back.
- `TrellisManager` (trellis_manager.dfy): the readiness state machine of
  `TrellisService` (construction, `startup`, `shutdown`, `is_ready`), and
  `generate`. `generate` covers the not-loaded guard, RGB conversion, the
  `images[0]` access, single/multi-image dispatch and extraction of the
  first Gaussian output.
- `ChampionDuel` (champion.dfy, serve.py's `run_champion_generation`): the seed redraw loop,
  the duel's call schedule, and the mapping from winner index to champion.
- `Delivery` (delivery.dfy, serve.py's endpoints): the chunked `/generate` stream and its
  headers, `/generate-spz`, the compress-or-raw choice of
  `/generate_from_base64`, and the catch-all handler that turns every
  exception into an HTTP 500.

Opaque collaborators enter as functions:

- Fields of backend records: the neural pipeline (`run`, `run_multi_image`),
  `save_ply`, PIL's pixel loading and recoding, the preprocessing steps, the
  generation helpers and the judge (`run_duel`).
- Parameters of `TrellisManager.Startup` (and of a startup step in a
  lifecycle): `from_pretrained` and `.cuda()`.
- Parameters of the `Delivery` functions: `pyspz.compress` and base64
  (section 4 of RFC 4648).

Randomness is a supplied sequence of draws.

Facts about the code that the model keeps:

- `run_champion_generation` never reads its `seed` argument, so the duel
  runs for every seed, a pinned one included. The `/generate` and
  `/generate-spz` docstrings (serve.py:128, serve.py:165) tie the duel to
  `seed = -1`; the code does not. `ChampionDuel.SeedArgumentIgnored` states
  this.
- Winner index 1 selects the single-view candidate. Every other integer
  selects the multi-view candidate, not only 0. A failing judge fails the
  request, so there is no default winner on error.
- On the JSON path, an SPZ result that comes back empty falls back to
  base64 of the raw bytes, because the code tests `if not compressed_ply_bytes`.

## Model

| member | source | states |
|---|---|---|
| `TrellisManager.NewService` | pipeline_service/modules/gs_generator/trellis_manager.py:19-23 | A new service is not ready. It keeps the configured GPU and the default parameters. |
| `TrellisManager.Startup` | pipeline_service/modules/gs_generator/trellis_manager.py:25-43 | A successful load of the configured model id leaves the service ready, holding that handle, even if moving it to the GPU then raises. A failed load leaves the service unchanged and raises the load's error. Configuration is never touched. |
| `TrellisManager.Shutdown` | pipeline_service/modules/gs_generator/trellis_manager.py:45-47 | After shutdown the service is not ready, from any state, including one where startup never ran. Nothing else changes. |
| `TrellisManager.RunLifecycle` | pipeline_service/modules/gs_generator/trellis_manager.py:25-50 | Any sequence of startups and shutdowns keeps the service's configuration. |
| `TrellisManager.ReadyAfterLifecycle` | pipeline_service/modules/gs_generator/trellis_manager.py:21-50 | From construction, after any sequence of startups and shutdowns, `is_ready` holds exactly when some startup loaded the model and no shutdown followed it. Both directions are proved. |
| `TrellisManager.ConvertRgb` | pipeline_service/modules/gs_generator/trellis_manager.py:59 | The pixel data is loaded first, for every mode, and a failing load raises its error, RGB images included. A loaded RGB image comes back unchanged. Any other image raises exactly when recoding raises, with its error, and otherwise carries the recoded pixels. A converted image is RGB and keeps its size. |
| `TrellisManager.NormaliseImages` | pipeline_service/modules/gs_generator/trellis_manager.py:58-59 | The list succeeds exactly when every image converts. Then every image is its RGB conversion, in order, with the count kept. Otherwise the error is that of the first image whose conversion raises. |
| `TrellisManager.DispatchCall` | pipeline_service/modules/gs_generator/trellis_manager.py:66-100 | Exactly one image goes to `run`. More than one goes to `run_multi_image` with mode "multidiffusion". The call carries exactly the given images, the request seed, both sampler parameter pairs, `num_oversamples`, `formats=["gaussian"]` and `preprocess_image=False`. |
| `TrellisManager.DispatchPathsAgree` | pipeline_service/modules/gs_generator/trellis_manager.py:66-100 | The single-image and multi-image calls agree on every argument except the images and the mode. |
| `TrellisManager.PrepareCall` | pipeline_service/modules/gs_generator/trellis_manager.py:56-61 | Not loaded fails with "Trellis pipeline not loaded." before anything else. Next, a conversion that raises fails with its error. With no images, the code fails at `images[0]` with an IndexError. It succeeds exactly when none of these happens, and then yields the loaded handle and the dispatch of the converted images. |
| `TrellisManager.FirstGaussian` | pipeline_service/modules/gs_generator/trellis_manager.py:103 | `outputs["gaussian"][0]` succeeds exactly when the key exists and its list is non-empty. Then it is that element. A missing key is a KeyError, and an empty list is an IndexError "list index out of range". |
| `TrellisManager.GenerateAsWritten` | pipeline_service/modules/gs_generator/trellis_manager.py:52-118 | `generate` as written makes the same pipeline call as the corrected version, or none in the same cases, with the same guard errors. When the pipeline call or the extraction of `outputs["gaussian"][0]` raises, the result is UnboundLocalError for `buffer`. When both succeed, it agrees with the corrected version. |
| `TrellisManager.Generate` | pipeline_service/modules/gs_generator/trellis_manager.py:52-118 | `generate` with the `finally` fixed. The guards come first, in order. The call made is the dispatch of the RGB-converted images. A failure of the pipeline call, of the extraction (KeyError or IndexError) or of `save_ply` propagates its own error. When all three succeed, `ply_file` is the serialised bytes of the first Gaussian output. |
| `TrellisManager.PipelineErrorMasked` | pipeline_service/modules/gs_generator/trellis_manager.py:65-118 | Whenever the pipeline call or the extraction fails, the code as written raises UnboundLocalError for `buffer`, while the corrected version raises the original error. |
| `TrellisManager.PipelineErrorMaskedExample` | pipeline_service/modules/gs_generator/trellis_manager.py:102-118 | Concrete cases: a pipeline raising "CUDA out of memory", and one returning no "gaussian" output, both surface as an unbound `buffer` as written. |
| `ChampionDuel.FirstRedraw` | pipeline_service/serve.py:62-63 | Returns the first later draw that differs from the first draw. Every draw it skips equals the first draw. |
| `ChampionDuel.DrawSeeds` | pipeline_service/serve.py:61-63 | s1 is the first draw and s2 a later draw, with s1 ≠ s2. Both lie in [0, 10000) when the draws do. |
| `ChampionDuel.DrawSeedPair` | pipeline_service/serve.py:61-63 | The redraw loop ends with s1 ≠ s2. s1 is the first draw and s2 the first later draw that differs from it. Every rejected redraw equalled s1. Both seeds are in range when the draws are. |
| `ChampionDuel.SelectChampion` | pipeline_service/serve.py:84-93 | The champion is one of the two candidates. Index 1 selects the single-view candidate. Every other index selects the multi-view candidate. |
| `ChampionDuel.Duel` | pipeline_service/serve.py:67-93 | The calls happen in the fixed order: multi-view preprocessing and generation under s1, then single-view under s2, then the judge. The log stops at the first call that raises, and the duel fails with that call's error. The judge is called, once, exactly when both candidates exist, and a failing judge fails the duel. A success makes all five calls, and the champion is either the multi-view payload under s1 or the single-view payload under s2, tagged as such. |
| `ChampionDuel.JudgeDecides` | pipeline_service/serve.py:81-93 | Once both candidates exist, a failing judge fails the duel with its error. Verdict 1 yields (ply2, s2). Any other verdict yields (ply1, s1). |
| `ChampionDuel.RunChampionGeneration` | pipeline_service/serve.py:53-93 | The first call uses the first draw, and the call log is always a prefix of the duel schedule under the drawn seeds, so the judge is called at most once. Under the drawn seeds, a failing multi-view or single-view candidate fails the run with its error, without consulting the judge. With both candidates, the run succeeds exactly when the judge does: a failing judge fails it, verdict 1 gives (single-view payload, s2) and any other verdict (multi-view payload, s1). On success the two seeds differ, all five calls were made, and the returned seed is in range when the draws are. |
| `ChampionDuel.SeedArgumentIgnored` | pipeline_service/serve.py:53-63 | The outcome is the same for every value of `seed`, so a pinned seed still runs the duel. |
| `ChampionDuel.ChampionAttribution` | pipeline_service/serve.py:61-93 | The returned seed identifies the strategy: s1 exactly when multi-view won. The returned payload is what that strategy generated under that seed. |
| `Decimal.NatToString` | pipeline_service/serve.py:142 | `str(n)` is a non-empty digit string without a leading zero, and `str(0)` is exactly "0". |
| `Decimal.IntToString` | pipeline_service/serve.py:142-143 | `str(i)` starts with a minus sign exactly when i is negative. |
| `Decimal.ParseNatToString` | pipeline_service/serve.py:142 | Reading `str(n)` back gives n. |
| `Decimal.ParseIntToString` | pipeline_service/serve.py:142-143 | Reading `str(i)` back gives i, for negative i too. |
| `Common.StrHttpErrorSplits` | pipeline_service/serve.py:157-159 | `str(exc)` of an HTTPException can be split back: the text before the first colon parses as the status code, a ": " follows, and the rest is the detail. |
| `Delivery.Read` | pipeline_service/serve.py:148 | `read(n)` returns n bytes, or the rest of the buffer when fewer remain. The rest of the buffer is that read followed by what follows it. |
| `Delivery.ChunksFrom` | pipeline_service/serve.py:146-149 | The chunks concatenated in order equal the payload. Each chunk is non-empty and at most 1 MiB. Every chunk but the last is exactly 1 MiB. |
| `Delivery.ChunkingUnique` | pipeline_service/serve.py:146-149 | Two well-formed chunkings of the same bytes are identical, so the chunking contract fixes the stream. |
| `Delivery.FirstChunkLength` | pipeline_service/serve.py:147-148 | The first chunk is 1 MiB, or the whole payload when that is shorter. |
| `Delivery.StreamHeaders` | pipeline_service/serve.py:137-144 | Exactly two headers. Content-Length is a digit string that reads back as the payload length. X-Generated-Seed reads back as the seed. |
| `Delivery.CatchAllRewrap` | pipeline_service/serve.py:193-195 | Catching an exception that the handler already produced does not leave it unchanged: the new detail is the old one with "500: " in front. |
| `Delivery.Generate` | pipeline_service/serve.py:125-159 | `/generate` succeeds exactly when the duel does. The streamed chunks reassemble to the champion's payload. The headers are exactly Content-Length, which reads back as its length, and X-Generated-Seed, which reads back as its seed. A failure is a 500 carrying the duel's error. |
| `Delivery.SpzResponse` | pipeline_service/serve.py:175-189 | A non-empty champion is returned as `compress(payload)`, as an octet stream with only the seed header. A codec failure is a 500 carrying `str` of the codec error. |
| `Delivery.GenerateSpzAsWritten` | pipeline_service/serve.py:162-195 | As written, an empty champion payload yields detail "500: Generated content is empty". When the duel fails or the payload is non-empty, it agrees with the corrected version. |
| `Delivery.GenerateSpz` | pipeline_service/serve.py:162-195 | An empty champion payload is rejected with detail "Generated content is empty". A non-empty one is returned as `compress(payload)`, as an octet stream with only the seed header. A codec failure is a 500 carrying `str` of the codec error. Duel failures are 500s carrying the duel's error. |
| `Delivery.SpzEmptyDetailRewrapped` | pipeline_service/serve.py:190-195 | For every empty champion, the as-written detail is the intended one with "500: " in front. |
| `Delivery.EncodePlyFieldChoice` | pipeline_service/serve.py:110-117 | The field is base64 of `compress(raw)` exactly when raw is non-empty, compression is on and the codec returns non-empty bytes. It is base64 of raw when compression is off, raw is empty, or the codec returns empty bytes. A codec error propagates. A missing payload is a TypeError. |
| `Delivery.GenerateFromBase64` | pipeline_service/serve.py:101-122 | Every failure is an HTTP 500: a failed generation carries its error, a missing payload is a TypeError, and a codec error is carried too. With compression off or an empty payload, the field is base64 of the raw bytes. With compression on, it is base64 of the SPZ result when that is non-empty, and base64 of the raw bytes when it is empty. |

## Findings

| source | as written | input that shows it | evidently intended | confidence | as-written member | corrected member |
|---|---|---|---|---|---|---|
| pipeline_service/modules/gs_generator/trellis_manager.py:102-118 | The `finally` block tests `buffer`, which is first bound at line 106. If `run`/`run_multi_image` raises, or `outputs["gaussian"][0]` raises (no "gaussian" key or an empty list), that test raises UnboundLocalError in place of the original error. | A ready service, one RGB image, and a pipeline that raises "CUDA out of memory" | The pipeline's own error propagates, carrying the original cause | high; not executed | `TrellisManager.GenerateAsWritten` (with `TrellisManager.PipelineErrorMasked`, `TrellisManager.PipelineErrorMaskedExample`) | `TrellisManager.Generate` |
| pipeline_service/serve.py:190-195 | The HTTPException("Generated content is empty") is raised inside the `try`. It is caught by `except Exception` and raised again with `detail=str(exc)`, which is "500: Generated content is empty". | A duel whose champion payload is empty | Detail "Generated content is empty" | medium (relies on Starlette's `HTTPException.__str__`); not executed | `Delivery.GenerateSpzAsWritten` (with `Delivery.SpzEmptyDetailRewrapped`) | `Delivery.GenerateSpz` |

## Left out

- FastAPI routing, CORS, request parsing, uvicorn startup, `/health`, `/setup/info` and the `lifespan` warm-up are transport and process plumbing.
- `TrellisParams.from_settings` and `TrellisParams.overrided` live in `schemas`, which is not part of this model. `generate` receives the resolved parameters as an input, and no field-wise override semantics are asserted.
- The neural pipeline, `from_pretrained`, `.cuda()` and `save_ply` are foreign neural and GPU calls. They are opaque functions: `from_pretrained` and `.cuda()` are parameters of `Startup`, and the others are fields of the backend record.
- `torch.cuda.set_device`, the CUDA availability test and the `os.environ` defaults in `startup` are omitted. A `set_device` failure would raise before the load, so it would behave like a failed load: the service stays unchanged.
- The UnboundLocalError message in `Common.Str` is the wording of Python 3.11 and later. Earlier versions word it differently.
- `secure_randint` is not part of this model. Its draws are a supplied sequence that must contain a later value different from the first. Termination of the redraw loop for a real random source is not claimed.
- ChampionDuel.DrawSeedPair: the [0, 10000) bound on both seeds is stated only for draws already in that range, because the random source is not part of this model.
- `prepare_input_images`, `prepare_single_image`, `generate_trellis_only`, `generate_trellis_single`, `generate_gs` and `DuelManager.run_duel` belong to modules that are not part of this model. They are opaque capabilities. How they reach `TrellisService.generate` is not modelled.
- `pyspz.compress` and base64 are opaque codecs. The compress/decompress round trip is a property of the codec, not of this code.
- The `/generate-spz` body is modelled as one chunk. Starlette streams a `BytesIO` line by line, and that granularity is not modelled. The bytes sent are the same.
- `winner_idx` is an integer. Python values that compare equal to 1 without being integers (such as `True`) are not modelled.
- Exception chaining (`__context__`) is not modelled: the model keeps only the exception that is raised. The same goes for `buffer.close()`, async scheduling, `_clean_gpu_memory`, timings and logging.

=== FILE: champion.dfy ===
/** The champion duel: two seeds are drawn until they differ, a multi-view
    candidate is generated under the first and a single-view candidate under
    the second, an external judge picks a winner index once, and the index
    is mapped to the champion's payload and seed.

    The random source is a supplied sequence of draws. Preprocessing,
    generation and the judge are opaque capabilities of a backend record. */
module ChampionDuel {
  import opened Common
  import TrellisManager

  // ---------------------------------------------------------------------
  // Seed draws
  // ---------------------------------------------------------------------

  /** The seed range [SeedLow, SeedHigh). The random source itself is not
      modelled; that its draws fall in this range is an assumption, stated
      as a hypothesis wherever it is used. */
  const SeedLow := 0
  const SeedHigh := 10000

  predicate InSeedRange(s: int) {
    SeedLow <= s < SeedHigh
  }

  predicate AllInSeedRange(draws: seq<int>) {
    forall i :: 0 <= i < |draws| ==> InSeedRange(draws[i])
  }

  /** The draws eventually produce a second seed different from the first,
      so the redraw loop stops. */
  predicate HasRedraw(draws: seq<int>) {
    exists j :: 1 <= j < |draws| && draws[j] != draws[0]
  }

  /** The index of the first draw at or after `from` that differs from the first draw. */
  function FirstRedraw(draws: seq<int>, from: nat): (k: nat)
    requires 1 <= from
    requires exists j :: from <= j < |draws| && draws[j] != draws[0]
    ensures from <= k < |draws|
    ensures draws[k] != draws[0]
    ensures forall j :: from <= j < k ==> draws[j] == draws[0]
    decreases |draws| - from
  {
    if draws[from] != draws[0] then from else FirstRedraw(draws, from + 1)
  }

  /** The two duel seeds and how many draws producing them consumed. */
  datatype SeedPair = SeedPair(s1: int, s2: int, used: nat)

  /** Reference definition of the draw: the first value, then the first later
      value that differs from it. */
  function DrawSeeds(draws: seq<int>): (p: SeedPair)
    requires HasRedraw(draws)
    ensures p.s1 != p.s2
    ensures p.s1 == draws[0] && 2 <= p.used <= |draws| && p.s2 == draws[p.used - 1]
    ensures AllInSeedRange(draws) ==> InSeedRange(p.s1) && InSeedRange(p.s2)
  {
    var k := FirstRedraw(draws, 1);
    SeedPair(draws[0], draws[k], k + 1)
  }

  /** The draw loop: take s1, take s2, and redraw s2 while it equals s1.
      Every rejected redraw equalled s1, and the pair is the reference draw. */
  method DrawSeedPair(draws: seq<int>) returns (s1: int, s2: int, used: nat)
    requires HasRedraw(draws)
    ensures s1 != s2
    ensures s1 == draws[0] && 2 <= used <= |draws| && s2 == draws[used - 1]
    ensures forall j :: 1 <= j < used - 1 ==> draws[j] == s1
    ensures AllInSeedRange(draws) ==> InSeedRange(s1) && InSeedRange(s2)
    ensures SeedPair(s1, s2, used) == DrawSeeds(draws)
  {
    s1 := draws[0];
    var i := 1;
    s2 := draws[i];
    while s2 == s1
      invariant 1 <= i < |draws|
      invariant s1 == draws[0] && s2 == draws[i]
      invariant forall j :: 1 <= j < i ==> draws[j] == s1
      invariant exists j :: i <= j < |draws| && draws[j] != s1
      decreases |draws| - i
    {
      i := i + 1;
      s2 := draws[i];
    }
    used := i + 1;
    var k := FirstRedraw(draws, 1);
    assert k == i;
  }

  // ---------------------------------------------------------------------
  // The duel
  // ---------------------------------------------------------------------

  datatype Strategy = MultiView | SingleView

  /** A generated payload with the seed and strategy that produced it. */
  datatype Candidate = Candidate(strategy: Strategy, seed: int, payload: Bytes)

  /** The capabilities the duel calls, in the order it calls them. */
  datatype DuelBackend = DuelBackend(
    prepareInputImages: (Bytes, int) -> Result<seq<TrellisManager.Image>>,
    generateTrellisOnly: (seq<TrellisManager.Image>, int) -> Result<Bytes>,
    prepareSingleImage: (Bytes, int) -> Result<TrellisManager.Image>,
    generateTrellisSingle: (TrellisManager.Image, int) -> Result<Bytes>,
    runDuel: (Bytes, Bytes, Bytes) -> Result<int>)

  /** One capability call made by the duel. */
  datatype Step =
    | PrepareMultiView(seed: int)
    | GenerateMultiView(seed: int)
    | PrepareSingleView(seed: int)
    | GenerateSingleView(seed: int)
    | Judge

  /** The calls made, in order, and the champion or the error that stopped the duel. */
  datatype DuelRun = DuelRun(steps: seq<Step>, result: Result<Candidate>)

  /** The complete call schedule of a duel under seeds s1 and s2. */
  function Schedule(s1: int, s2: int): seq<Step> {
    [PrepareMultiView(s1), GenerateMultiView(s1), PrepareSingleView(s2), GenerateSingleView(s2), Judge]
  }

  /** The multi-view candidate's payload under seed `s`: preprocess into views, then generate. */
  function MultiViewPayload(imageBytes: Bytes, s: int, backend: DuelBackend): Result<Bytes> {
    match backend.prepareInputImages(imageBytes, s)
    case Err(e) => Err(e)
    case Ok(views) => backend.generateTrellisOnly(views, s)
  }

  /** The single-view candidate's payload under seed `s`. */
  function SingleViewPayload(imageBytes: Bytes, s: int, backend: DuelBackend): Result<Bytes> {
    match backend.prepareSingleImage(imageBytes, s)
    case Err(e) => Err(e)
    case Ok(view) => backend.generateTrellisSingle(view, s)
  }

  /** The winner mapping: index 1 selects the single-view candidate, and
      every other index, 0 or not, selects the multi-view one. */
  function SelectChampion(winnerIdx: int, multi: Candidate, single: Candidate): (c: Candidate)
    ensures c == multi || c == single
    ensures winnerIdx == 1 ==> c == single
    ensures winnerIdx != 1 ==> c == multi
  {
    if winnerIdx == 1 then single else multi
  }

  /** The duel under fixed seeds. Both candidates are generated before the
      judge is consulted, the judge is consulted at most once, and any failure
      ends the duel with that failure: there is no default winner. The call
      log stops at the first call that raises. */
  function Duel(imageBytes: Bytes, s1: int, s2: int, backend: DuelBackend): (d: DuelRun)
    ensures 0 < |d.steps| <= 5 && d.steps == Schedule(s1, s2)[..|d.steps|]
    ensures Judge in d.steps <==> d.steps == Schedule(s1, s2)
    ensures d.result.Ok? ==> d.steps == Schedule(s1, s2)
    ensures var m := MultiViewPayload(imageBytes, s1, backend);
      var s := SingleViewPayload(imageBytes, s2, backend);
      (m.Err? ==> d.result == Err(m.error) && Judge !in d.steps) &&
      (m.Ok? && s.Err? ==> d.result == Err(s.error) && Judge !in d.steps) &&
      (Judge in d.steps <==> m.Ok? && s.Ok?) &&
      (m.Ok? && s.Ok? && backend.runDuel(imageBytes, m.value, s.value).Err? ==>
        d.result == Err(backend.runDuel(imageBytes, m.value, s.value).error))
    ensures backend.prepareInputImages(imageBytes, s1).Err? ==> |d.steps| == 1
    ensures var views := backend.prepareInputImages(imageBytes, s1);
      views.Ok? && backend.generateTrellisOnly(views.value, s1).Err? ==> |d.steps| == 2
    ensures (MultiViewPayload(imageBytes, s1, backend).Ok? &&
      backend.prepareSingleImage(imageBytes, s2).Err?) ==> |d.steps| == 3
    ensures var view := backend.prepareSingleImage(imageBytes, s2);
      (MultiViewPayload(imageBytes, s1, backend).Ok? && view.Ok? &&
        backend.generateTrellisSingle(view.value, s2).Err?) ==> |d.steps| == 4
    ensures d.result.Ok? ==>
      (d.result.value.strategy == MultiView && d.result.value.seed == s1 &&
        MultiViewPayload(imageBytes, s1, backend) == Ok(d.result.value.payload)) ||
      (d.result.value.strategy == SingleView && d.result.value.seed == s2 &&
        SingleViewPayload(imageBytes, s2, backend) == Ok(d.result.value.payload))
  {
    match backend.prepareInputImages(imageBytes, s1)
    case Err(e) => DuelRun(Schedule(s1, s2)[..1], Err(e))
    case Ok(views) =>
      match backend.generateTrellisOnly(views, s1)
      case Err(e) => DuelRun(Schedule(s1, s2)[..2], Err(e))
      case Ok(ply1) =>
        match backend.prepareSingleImage(imageBytes, s2)
        case Err(e) => DuelRun(Schedule(s1, s2)[..3], Err(e))
        case Ok(view) =>
          match backend.generateTrellisSingle(view, s2)
          case Err(e) => DuelRun(Schedule(s1, s2)[..4], Err(e))
          case Ok(ply2) =>
            match backend.runDuel(imageBytes, ply1, ply2)
            case Err(e) => DuelRun(Schedule(s1, s2), Err(e))
            case Ok(winnerIdx) =>
              DuelRun(Schedule(s1, s2),
                Ok(SelectChampion(winnerIdx, Candidate(MultiView, s1, ply1), Candidate(SingleView, s2, ply2))))
  }

  /** When both candidates exist, the judge's verdict decides the outcome:
      a failing judge fails the duel, index 1 crowns the single-view
      candidate, and any other index crowns the multi-view candidate. */
  lemma JudgeDecides(imageBytes: Bytes, s1: int, s2: int, backend: DuelBackend, ply1: Bytes, ply2: Bytes)
    requires MultiViewPayload(imageBytes, s1, backend) == Ok(ply1)
    requires SingleViewPayload(imageBytes, s2, backend) == Ok(ply2)
    ensures var d := Duel(imageBytes, s1, s2, backend);
      var verdict := backend.runDuel(imageBytes, ply1, ply2);
      d.steps == Schedule(s1, s2) &&
      (verdict.Err? ==> d.result == Err(verdict.error)) &&
      (verdict == Ok(1) ==> d.result == Ok(Candidate(SingleView, s2, ply2))) &&
      (verdict.Ok? && verdict.value != 1 ==> d.result == Ok(Candidate(MultiView, s1, ply1)))
  {
  }

  /** `run_champion_generation`: draw the seeds and run the duel. The
      `seed` argument is accepted and never read. */
  function RunChampionGeneration(imageBytes: Bytes, seed: int, draws: seq<int>, backend: DuelBackend): (d: DuelRun)
    requires HasRedraw(draws)
    ensures 0 < |d.steps| && d.steps[0] == PrepareMultiView(draws[0])
    ensures var p := DrawSeeds(draws);
      |d.steps| <= 5 && d.steps == Schedule(p.s1, p.s2)[..|d.steps|]
    ensures d.result.Ok? ==>
      var p := DrawSeeds(draws);
      d.steps == Schedule(p.s1, p.s2) && p.s1 != p.s2 &&
      (d.result.value.seed == p.s1 || d.result.value.seed == p.s2)
    ensures d.result.Ok? && AllInSeedRange(draws) ==> InSeedRange(d.result.value.seed)
    ensures var p := DrawSeeds(draws);
      var m := MultiViewPayload(imageBytes, p.s1, backend);
      var s := SingleViewPayload(imageBytes, p.s2, backend);
      (m.Err? ==> d.result == Err(m.error) && Judge !in d.steps) &&
      (m.Ok? && s.Err? ==> d.result == Err(s.error) && Judge !in d.steps) &&
      (Judge in d.steps <==> m.Ok? && s.Ok?) &&
      (m.Ok? && s.Ok? ==>
        var verdict := backend.runDuel(imageBytes, m.value, s.value);
        (d.result.Ok? <==> verdict.Ok?) &&
        (verdict.Err? ==> d.result == Err(verdict.error)) &&
        (verdict == Ok(1) ==> d.result == Ok(Candidate(SingleView, p.s2, s.value))) &&
        (verdict.Ok? && verdict.value != 1 ==> d.result == Ok(Candidate(MultiView, p.s1, m.value))))
  {
    var p := DrawSeeds(draws);
    Duel(imageBytes, p.s1, p.s2, backend)
  }

  /** A pinned seed does not bypass the duel: the outcome is the same for
      every value of the `seed` argument, including the -1 sentinel. */
  lemma SeedArgumentIgnored(imageBytes: Bytes, seed: int, draws: seq<int>, backend: DuelBackend)
    requires HasRedraw(draws)
    ensures RunChampionGeneration(imageBytes, seed, draws, backend)
         == RunChampionGeneration(imageBytes, -1, draws, backend)
  {
  }

  /** The winning seed identifies the winning payload: because the seeds
      differ, the champion's seed names exactly one strategy, and its payload
      is that strategy's generation under that seed. */
  lemma ChampionAttribution(imageBytes: Bytes, seed: int, draws: seq<int>, backend: DuelBackend)
    requires HasRedraw(draws)
    requires RunChampionGeneration(imageBytes, seed, draws, backend).result.Ok?
    ensures var p := DrawSeeds(draws);
      var c := RunChampionGeneration(imageBytes, seed, draws, backend).result.value;
      (c.seed == p.s1 <==> c.strategy == MultiView) &&
      (c.seed == p.s1 ==> MultiViewPayload(imageBytes, p.s1, backend) == Ok(c.payload)) &&
      (c.seed == p.s2 ==> SingleViewPayload(imageBytes, p.s2, backend) == Ok(c.payload))
  {
    var p := DrawSeeds(draws);
    var d := Duel(imageBytes, p.s1, p.s2, backend);
    assert p.s1 != p.s2;
  }
}

=== FILE: common.dfy ===
/** Shared vocabulary: byte strings, optional values, and the Python
    exceptions the service raises, carried as values instead of thrown. */
module Common {
  import Decimal

  type Byte = bv8
  type Bytes = seq<Byte>

  datatype Option<+T> = None | Some(value: T)

  /** The exceptions that can surface from the core, by Python class. A failure
      raised inside an opaque collaborator (a codec, the judge, the neural
      pipeline) is `Raised` with its message. */
  datatype Error =
    | RuntimeError(message: string)
    | IndexError(message: string)
    | KeyError(key: string)
    | TypeError(message: string)
    | UnboundLocalError(name: string)
    | HttpError(status: int, detail: string)
    | Raised(message: string)

  datatype Result<+T> = Ok(value: T) | Err(error: Error)

  /** The result of an operation that returns nothing but may raise. */
  datatype Outcome = Pass | Fail(error: Error)

  /** Python's `str(exc)`. A FastAPI/Starlette `HTTPException` renders as
      "<status>: <detail>". */
  function Str(e: Error): (s: string)
    ensures e.HttpError? ==> s == Decimal.IntToString(e.status) + ": " + e.detail
  {
    match e
    case RuntimeError(m) => m
    case IndexError(m) => m
    case KeyError(k) => "'" + k + "'"
    case TypeError(m) => m
    case UnboundLocalError(n) =>
      "cannot access local variable '" + n + "' where it is not associated with a value"
    case HttpError(status, detail) => Decimal.IntToString(status) + ": " + detail
    case Raised(m) => m
  }

  /** `str` of an HTTPException can be taken apart again: the text before
      the first colon reads back as the status code, and the text after the
      ": " separator is the detail. */
  lemma StrHttpErrorSplits(status: int, detail: string)
    ensures var t := Str(HttpError(status, detail));
      var k := |Decimal.IntToString(status)|;
      k + 2 <= |t| &&
      (forall i :: 0 <= i < k ==> t[i] != ':') &&
      t[k..k + 2] == ": " &&
      Decimal.IsIntLiteral(t[..k]) && Decimal.ParseInt(t[..k]) == status &&
      t[k + 2..] == detail
  {
    var p := Decimal.IntToString(status);
    var t := Str(HttpError(status, detail));
    Decimal.ParseIntToString(status);
    assert t == p + ": " + detail;
    assert t[..|p|] == p;
    assert t[|p| + 2..] == detail;
    forall i | 0 <= i < |p|
      ensures t[i] != ':'
    {
      assert t[i] == p[i];
      if status < 0 && i > 0 {
        assert p[1..][i - 1] == p[i];
      }
    }
  }
}

=== FILE: decimal.dfy ===
/** Decimal rendering of integers, as Python's `str(int)` writes them into
    HTTP header values, together with the parser that reads them back. */
module Decimal {

  predicate IsDigit(c: char) {
    '0' <= c <= '9'
  }

  predicate AllDigits(s: string) {
    forall i :: 0 <= i < |s| ==> IsDigit(s[i])
  }

  function DigitChar(d: nat): (c: char)
    requires d < 10
    ensures IsDigit(c)
    ensures DigitValue(c) == d
  {
    ('0' as int + d) as char
  }

  function DigitValue(c: char): (d: nat)
    requires IsDigit(c)
    ensures d < 10
  {
    c as int - '0' as int
  }

  /** `str(n)` for a non-negative integer: at least one digit, no leading zero. */
  function NatToString(n: nat): (s: string)
    ensures 0 < |s|
    ensures AllDigits(s)
    ensures s[0] == '0' ==> n == 0
    ensures n == 0 ==> s == "0"
    decreases n
  {
    if n < 10 then [DigitChar(n)]
    else NatToString(n / 10) + [DigitChar(n % 10)]
  }

  /** `str(i)` for any integer: a minus sign in front of the magnitude when negative. */
  function IntToString(i: int): (s: string)
    ensures 0 < |s|
    ensures i < 0 <==> s[0] == '-'
    ensures i >= 0 ==> AllDigits(s)
    ensures i < 0 ==> AllDigits(s[1..])
  {
    if i < 0 then "-" + NatToString(-i) else NatToString(i)
  }

  /** Reads a run of decimal digits, most significant first. */
  function ParseNat(s: string): nat
    requires AllDigits(s)
    decreases |s|
  {
    if |s| == 0 then 0
    else ParseNat(s[..|s| - 1]) * 10 + DigitValue(s[|s| - 1])
  }

  predicate IsIntLiteral(s: string) {
    AllDigits(s) || (0 < |s| && s[0] == '-' && AllDigits(s[1..]))
  }

  /** Reads an optionally negative decimal literal. */
  function ParseInt(s: string): int
    requires IsIntLiteral(s)
  {
    if 0 < |s| && s[0] == '-' then 0 - ParseNat(s[1..]) as int else ParseNat(s)
  }

  lemma {:induction false} ParseNatToString(n: nat)
    ensures ParseNat(NatToString(n)) == n
    decreases n
  {
    var s := NatToString(n);
    if n < 10 {
      assert s[..|s| - 1] == [];
    } else {
      ParseNatToString(n / 10);
      assert s[..|s| - 1] == NatToString(n / 10);
    }
  }

  lemma ParseIntToString(i: int)
    ensures IsIntLiteral(IntToString(i))
    ensures ParseInt(IntToString(i)) == i
  {
    var s := IntToString(i);
    if i < 0 {
      assert s[1..] == NatToString(-i);
      ParseNatToString(-i);
    } else {
      ParseNatToString(i);
    }
  }
}

=== FILE: delivery.dfy ===
/** Result delivery at the service boundary: the streamed PLY response of
    `/generate` (1 MiB chunks, length and seed headers), the compressed
    response of `/generate-spz`, and the base64 field of
    `/generate_from_base64`. Every exception raised inside an endpoint is
    re-raised as an HTTP 500 whose detail is `str(exc)`.

    The SPZ codec and base64 (section 4 of RFC 4648) are opaque functions,
    passed as parameters. */
module Delivery {
  import opened Common
  import Decimal
  import ChampionDuel

  const ChunkSize: nat := 1024 * 1024
  const OctetStream := "application/octet-stream"
  const ContentLength := "Content-Length"
  const GeneratedSeed := "X-Generated-Seed"
  const EmptyContentMessage := "Generated content is empty"
  const NoneTypeMessage := "a bytes-like object is required, not 'NoneType'"

  /** A streamed HTTP response: its body as the chunks the stream yields. */
  datatype Response = Response(body: seq<Bytes>, mediaType: string, headers: map<string, string>)

  // ---------------------------------------------------------------------
  // Chunked streaming
  // ---------------------------------------------------------------------

  function Concat(chunks: seq<Bytes>): (b: Bytes)
    decreases |chunks|
  {
    if |chunks| == 0 then [] else chunks[0] + Concat(chunks[1..])
  }

  /** Every chunk is non-empty and at most `size` long, and every chunk but
      the last is exactly `size` long. */
  predicate WellChunked(chunks: seq<Bytes>, size: nat) {
    forall i :: 0 <= i < |chunks| ==>
      0 < |chunks[i]| <= size && (i < |chunks| - 1 ==> |chunks[i]| == size)
  }

  /** `BytesIO.read(n)` at position `pos`: up to `n` bytes, fewer at the end. */
  function Read(buf: Bytes, pos: nat, n: nat): (r: Bytes)
    requires pos <= |buf|
    ensures |r| == if pos + n <= |buf| then n else |buf| - pos
    ensures buf[pos..] == r + buf[pos + |r|..]
  {
    if pos + n <= |buf| then buf[pos..pos + n] else buf[pos..]
  }

  /** `generate_chunks`: read 1 MiB at a time from `pos` and yield each read
      until a read comes back empty. The chunks put back together are the
      rest of the buffer. */
  function ChunksFrom(buf: Bytes, pos: nat): (chunks: seq<Bytes>)
    requires pos <= |buf|
    ensures Concat(chunks) == buf[pos..]
    ensures WellChunked(chunks, ChunkSize)
    decreases |buf| - pos
  {
    var chunk := Read(buf, pos, ChunkSize);
    if |chunk| == 0 then []
    else [chunk] + ChunksFrom(buf, pos + |chunk|)
  }

  lemma ConcatFirst(chunks: seq<Bytes>)
    requires 0 < |chunks|
    ensures Concat(chunks) == chunks[0] + Concat(chunks[1..])
  {
  }

  /** The shape of a chunking determines it: two well-chunked sequences with
      the same positive chunk size that concatenate to the same bytes are
      the same sequence. So `ChunksFrom` is the only chunking with its
      contract. */
  lemma {:induction false} ChunkingUnique(a: seq<Bytes>, b: seq<Bytes>, size: nat)
    requires 0 < size
    requires WellChunked(a, size) && WellChunked(b, size)
    requires Concat(a) == Concat(b)
    ensures a == b
    decreases |a|
  {
    if |a| == 0 || |b| == 0 {
    } else {
      ConcatFirst(a);
      ConcatFirst(b);
      var whole := Concat(a);
      assert |a[0]| == |b[0]| by {
        FirstChunkLength(a, size);
        FirstChunkLength(b, size);
      }
      assert a[0] == whole[..|a[0]|];
      assert b[0] == whole[..|b[0]|];
      assert Concat(a[1..]) == whole[|a[0]|..];
      assert Concat(b[1..]) == whole[|b[0]|..];
      assert WellChunked(a[1..], size);
      assert WellChunked(b[1..], size);
      ChunkingUnique(a[1..], b[1..], size);
      assert a == [a[0]] + a[1..];
      assert b == [b[0]] + b[1..];
    }
  }

  /** In a chunking, the first chunk is as long as the chunk size allows. */
  lemma FirstChunkLength(a: seq<Bytes>, size: nat)
    requires 0 < |a| && WellChunked(a, size)
    ensures |a[0]| == if |Concat(a)| < size then |Concat(a)| else size
  {
    ConcatFirst(a);
    if |a| > 1 {
      ConcatFirst(a[1..]);
      assert |a[1]| > 0;
    }
  }

  // ---------------------------------------------------------------------
  // Headers and exception handling
  // ---------------------------------------------------------------------

  /** Header `key` is present and reads back, as a decimal integer, as `value`. */
  predicate HeaderIs(h: map<string, string>, key: string, value: int) {
    key in h && Decimal.IsIntLiteral(h[key]) && Decimal.ParseInt(h[key]) == value
  }

  /** The `/generate` headers: the payload length and the champion's seed, in decimal. */
  function StreamHeaders(size: nat, seed: int): (h: map<string, string>)
    ensures h.Keys == {ContentLength, GeneratedSeed}
    ensures HeaderIs(h, ContentLength, size) && Decimal.AllDigits(h[ContentLength])
    ensures HeaderIs(h, GeneratedSeed, seed)
  {
    Decimal.ParseIntToString(size);
    Decimal.ParseIntToString(seed);
    map[ContentLength := Decimal.IntToString(size), GeneratedSeed := Decimal.IntToString(seed)]
  }

  /** The endpoints' catch-all handler: any exception leaves as an HTTP 500
      whose detail is the exception's string form. */
  function CatchAll(e: Error): (h: Error)
    ensures h.HttpError? && h.status == 500 && h.detail == Str(e)
  {
    HttpError(500, Str(e))
  }

  /** Catching an already caught exception prefixes its detail with "500: ":
      the re-wrap that the `/generate-spz` empty-content error goes through. */
  lemma CatchAllRewrap(e: Error)
    ensures CatchAll(CatchAll(e)).detail == "500: " + CatchAll(e).detail
    ensures CatchAll(CatchAll(e)) != CatchAll(e)
  {
  }

  // ---------------------------------------------------------------------
  // Endpoints
  // ---------------------------------------------------------------------

  /** `/generate`: run the duel and stream the champion's PLY bytes. The
      body reassembles to the payload, Content-Length is its length, and the
      seed header reads back as the champion's seed. */
  function Generate(imageBytes: Bytes, seed: int, draws: seq<int>, backend: ChampionDuel.DuelBackend)
    : (r: Result<Response>)
    requires ChampionDuel.HasRedraw(draws)
    ensures var run := ChampionDuel.RunChampionGeneration(imageBytes, seed, draws, backend);
      (r.Ok? <==> run.result.Ok?) &&
      (r.Err? ==> r.error == CatchAll(run.result.error)) &&
      (r.Ok? ==>
        var c := run.result.value;
        Concat(r.value.body) == c.payload && WellChunked(r.value.body, ChunkSize) &&
        r.value.mediaType == OctetStream &&
        r.value.headers.Keys == {ContentLength, GeneratedSeed} &&
        HeaderIs(r.value.headers, ContentLength, |c.payload|) &&
        HeaderIs(r.value.headers, GeneratedSeed, c.seed))
  {
    var run := ChampionDuel.RunChampionGeneration(imageBytes, seed, draws, backend);
    match run.result
    case Err(e) => Err(CatchAll(e))
    case Ok(c) => Ok(Response(ChunksFrom(c.payload, 0), OctetStream, StreamHeaders(|c.payload|, c.seed)))
  }

  /** The `/generate-spz` success branch: compress a non-empty champion
      payload and send it with the seed header. */
  function SpzResponse(c: ChampionDuel.Candidate, compress: Bytes -> Result<Bytes>): (r: Result<Response>)
    requires 0 < |c.payload|
    ensures r.Ok? <==> compress(c.payload).Ok?
    ensures r.Ok? ==> Concat(r.value.body) == compress(c.payload).value
    ensures r.Ok? ==> r.value.mediaType == OctetStream
    ensures r.Ok? ==> r.value.headers.Keys == {GeneratedSeed}
    ensures r.Ok? ==> HeaderIs(r.value.headers, GeneratedSeed, c.seed)
    ensures r.Err? ==> r.error == CatchAll(compress(c.payload).error)
  {
    Decimal.ParseIntToString(c.seed);
    match compress(c.payload)
    case Err(e) => Err(CatchAll(e))
    case Ok(z) =>
      assert Concat([z]) == z;
      Ok(Response([z], OctetStream, map[GeneratedSeed := Decimal.IntToString(c.seed)]))
  }

  /** `/generate-spz` as the Python code is written: the "Generated content is
      empty" `HTTPException` is raised inside the `try`, caught by the
      catch-all handler and raised again with `str(exc)` as its detail,
      which prefixes the status code. */
  function GenerateSpzAsWritten(
    imageBytes: Bytes, seed: int, draws: seq<int>,
    backend: ChampionDuel.DuelBackend, compress: Bytes -> Result<Bytes>): (r: Result<Response>)
    requires ChampionDuel.HasRedraw(draws)
    ensures var run := ChampionDuel.RunChampionGeneration(imageBytes, seed, draws, backend);
      (run.result.Ok? && |run.result.value.payload| == 0 ==>
        r == Err(HttpError(500, "500: " + EmptyContentMessage))) &&
      (run.result.Err? || 0 < |run.result.value.payload| ==>
        r == GenerateSpz(imageBytes, seed, draws, backend, compress))
  {
    var run := ChampionDuel.RunChampionGeneration(imageBytes, seed, draws, backend);
    match run.result
    case Err(e) => Err(CatchAll(e))
    case Ok(c) =>
      if 0 < |c.payload| then SpzResponse(c, compress)
      else Err(CatchAll(HttpError(500, EmptyContentMessage)))
  }

  /** `/generate-spz` with the empty-content error delivered as raised: an
      empty champion is rejected with exactly "Generated content is empty",
      and a non-empty one is returned compressed. */
  function GenerateSpz(
    imageBytes: Bytes, seed: int, draws: seq<int>,
    backend: ChampionDuel.DuelBackend, compress: Bytes -> Result<Bytes>): (r: Result<Response>)
    requires ChampionDuel.HasRedraw(draws)
    ensures var run := ChampionDuel.RunChampionGeneration(imageBytes, seed, draws, backend);
      (run.result.Err? ==> r == Err(CatchAll(run.result.error))) &&
      (run.result.Ok? && |run.result.value.payload| == 0 ==>
        r == Err(HttpError(500, EmptyContentMessage))) &&
      (run.result.Ok? && 0 < |run.result.value.payload| ==>
        (r.Ok? <==> compress(run.result.value.payload).Ok?) &&
        (r.Err? ==> r.error == CatchAll(compress(run.result.value.payload).error)) &&
        (r.Ok? ==> (Concat(r.value.body) == compress(run.result.value.payload).value &&
          r.value.mediaType == OctetStream && r.value.headers.Keys == {GeneratedSeed} &&
          HeaderIs(r.value.headers, GeneratedSeed, run.result.value.seed))))
  {
    var run := ChampionDuel.RunChampionGeneration(imageBytes, seed, draws, backend);
    match run.result
    case Err(e) => Err(CatchAll(e))
    case Ok(c) =>
      if 0 < |c.payload| then SpzResponse(c, compress)
      else Err(HttpError(500, EmptyContentMessage))
  }

  /** The two versions differ only in the detail of the empty-content error. */
  lemma SpzEmptyDetailRewrapped(
    imageBytes: Bytes, seed: int, draws: seq<int>,
    backend: ChampionDuel.DuelBackend, compress: Bytes -> Result<Bytes>)
    requires ChampionDuel.HasRedraw(draws)
    requires ChampionDuel.RunChampionGeneration(imageBytes, seed, draws, backend).result.Ok?
    requires |ChampionDuel.RunChampionGeneration(imageBytes, seed, draws, backend).result.value.payload| == 0
    ensures GenerateSpzAsWritten(imageBytes, seed, draws, backend, compress).error.detail
         == "500: " + GenerateSpz(imageBytes, seed, draws, backend, compress).error.detail
    ensures GenerateSpzAsWritten(imageBytes, seed, draws, backend, compress)
         != GenerateSpz(imageBytes, seed, draws, backend, compress)
  {
    var a := GenerateSpzAsWritten(imageBytes, seed, draws, backend, compress);
    var b := GenerateSpz(imageBytes, seed, draws, backend, compress);
    assert a.error.detail != b.error.detail by {
      assert |a.error.detail| > |b.error.detail|;
    }
  }

  /** The `/generate_from_base64` field: the raw PLY is compressed only when
      it is present and non-empty and compression is enabled; the compressed
      bytes are then encoded unless they came back empty, in which case the
      raw bytes are. A missing PLY cannot be encoded. */
  function EncodePlyField(
    ply: Option<Bytes>, compression: bool,
    compress: Bytes -> Result<Bytes>, b64encode: Bytes -> string): (r: Result<string>)
  {
    var compressed: Result<Option<Bytes>> :=
      if ply.Some? && 0 < |ply.value| && compression then
        match compress(ply.value)
        case Err(e) => Err(e)
        case Ok(z) => Ok(Some(z))
      else Ok(None);
    match compressed
    case Err(e) => Err(e)
    case Ok(z) =>
      if z.Some? && 0 < |z.value| then Ok(b64encode(z.value))
      else match ply
        case None => Err(TypeError(NoneTypeMessage))
        case Some(raw) => Ok(b64encode(raw))
  }

  /** The compress-or-raw choice, stated case by case: which bytes reach the
      base64 encoder for every combination of payload, setting and codec
      outcome. */
  lemma EncodePlyFieldChoice(
    ply: Option<Bytes>, compression: bool,
    compress: Bytes -> Result<Bytes>, b64encode: Bytes -> string)
    ensures var r := EncodePlyField(ply, compression, compress, b64encode);
      (ply.None? ==> r == Err(TypeError(NoneTypeMessage))) &&
      (ply.Some? && (!compression || |ply.value| == 0) ==> r == Ok(b64encode(ply.value))) &&
      (ply.Some? && compression && 0 < |ply.value| ==>
        var z := compress(ply.value);
        (z.Err? ==> r == Err(z.error)) &&
        (z.Ok? && 0 < |z.value| ==> r == Ok(b64encode(z.value))) &&
        (z.Ok? && |z.value| == 0 ==> r == Ok(b64encode(ply.value))))
  {
  }

  /** `/generate_from_base64`: the pipeline's result (or its failure) with
      its PLY field replaced by the base64 text; any failure becomes a 500. */
  function GenerateFromBase64(
    generated: Result<Option<Bytes>>, compression: bool,
    compress: Bytes -> Result<Bytes>, b64encode: Bytes -> string): (r: Result<string>)
    ensures generated.Err? ==> r == Err(CatchAll(generated.error))
    ensures r.Err? ==> r.error.HttpError? && r.error.status == 500
    ensures generated == Ok(None) ==> r == Err(CatchAll(TypeError(NoneTypeMessage)))
    ensures generated.Ok? && generated.value.Some? ==>
      var raw := generated.value.value;
      ((!compression || |raw| == 0) ==> r == Ok(b64encode(raw))) &&
      (compression && 0 < |raw| ==>
        var z := compress(raw);
        (z.Err? ==> r == Err(CatchAll(z.error))) &&
        (z.Ok? && 0 < |z.value| ==> r == Ok(b64encode(z.value))) &&
        (z.Ok? && |z.value| == 0 ==> r == Ok(b64encode(raw))))
  {
    match generated
    case Err(e) => Err(CatchAll(e))
    case Ok(ply) =>
      match EncodePlyField(ply, compression, compress, b64encode)
      case Err(e) => Err(CatchAll(e))
      case Ok(text) => Ok(text)
  }
}

=== FILE: trellis_manager.dfy ===
/** The Trellis inference wrapper: a service that owns the loaded
    image-to-3D pipeline handle, reports readiness, and turns one request
    (images, seed, sampling parameters) into one pipeline call whose first
    Gaussian output is serialised to PLY bytes.

    The neural pipeline, PLY serialisation and PIL's pixel loading and
    recoding are opaque functions of a backend record; the loader
    (`from_pretrained`) and the GPU placement (`.cuda()`) are opaque
    functions passed to `Startup`. */
module TrellisManager {
  import opened Common

  // ---------------------------------------------------------------------
  // Data model
  // ---------------------------------------------------------------------

  datatype ColorMode = Rgb | Rgba | Grey | Palette | OtherMode(name: string)

  datatype Image = Image(mode: ColorMode, width: nat, height: nat, pixels: Bytes)

  /** Resolved sampling parameters: the defaults with a request's overrides applied. */
  datatype TrellisParams = TrellisParams(
    sparseStructureSteps: int,
    sparseStructureCfgStrength: real,
    slatSteps: int,
    slatCfgStrength: real,
    numOversamples: int)

  /** One stage's sampler arguments: `{"steps": …, "cfg_strength": …}`. */
  datatype SamplerParams = SamplerParams(steps: int, cfgStrength: real)

  datatype Settings = Settings(trellisGpu: int, trellisModelId: string)

  /** An opaque loaded pipeline, as returned by `from_pretrained`. */
  datatype PipelineHandle = PipelineHandle(modelId: string, instance: nat)

  datatype TrellisService = TrellisService(
    settings: Settings,
    gpu: int,
    defaultParams: TrellisParams,
    pipeline: Option<PipelineHandle>)

  /** An opaque Gaussian-splat object produced by the pipeline. */
  datatype GaussianCloud = GaussianCloud(instance: nat)

  /** The pipeline's outputs, keyed by format name. */
  type Outputs = map<string, seq<GaussianCloud>>

  /** The two entry points of the neural pipeline, with every argument
      the wrapper passes. */
  datatype PipelineCall =
    | Run(
        image: Image, seed: int,
        sparseStructure: SamplerParams, slat: SamplerParams,
        preprocessImage: bool, formats: seq<string>, numOversamples: int)
    | RunMultiImage(
        images: seq<Image>, seed: int,
        sparseStructure: SamplerParams, slat: SamplerParams,
        preprocessImage: bool, formats: seq<string>, numOversamples: int,
        mode: string)

  datatype TrellisRequest = TrellisRequest(images: seq<Image>, seed: int)

  datatype TrellisResult = TrellisResult(plyFile: Bytes)

  /** PIL's decoding of an image: `load` reads the pixel data, which a lazily
      opened file defers until first use and which may raise (a truncated
      file); `recode` converts loaded pixels of a non-RGB mode to RGB and
      may raise too (an unsupported mode). */
  datatype PilCodec = PilCodec(load: Image -> Outcome, recode: Image -> Result<Bytes>)

  /** The foreign capabilities the wrapper calls. */
  datatype TrellisBackend = TrellisBackend(
    pil: PilCodec,
    run: (PipelineHandle, PipelineCall) -> Result<Outputs>,
    savePly: GaussianCloud -> Result<Bytes>)

  /** A generation attempt: the pipeline call made, if one was made, and its result. */
  datatype Generation = Generation(call: Option<PipelineCall>, result: Result<TrellisResult>)

  const NotLoadedMessage := "Trellis pipeline not loaded."
  const ListIndexMessage := "list index out of range"
  const GaussianFormat := "gaussian"
  const FusionMode := "multidiffusion"

  // ---------------------------------------------------------------------
  // Lifecycle
  // ---------------------------------------------------------------------

  predicate IsReady(svc: TrellisService) {
    svc.pipeline.Some?
  }

  /** A freshly constructed service; `defaults` is what `from_settings` produced. */
  function NewService(settings: Settings, defaults: TrellisParams): (svc: TrellisService)
    ensures !IsReady(svc)
    ensures svc.settings == settings && svc.gpu == settings.trellisGpu
    ensures svc.defaultParams == defaults
  {
    TrellisService(settings, settings.trellisGpu, defaults, None)
  }

  /** The service after a lifecycle call, and whether that call raised. */
  datatype Transition = Transition(service: TrellisService, raised: Outcome)

  /** True when two services differ at most in their pipeline handle. */
  predicate SameConfiguration(a: TrellisService, b: TrellisService) {
    a.settings == b.settings && a.gpu == b.gpu && a.defaultParams == b.defaultParams
  }

  /** `startup`: load the configured model, store the handle, then move it to
      the GPU. A failed load leaves the service untouched; a failed move
      raises after the handle is already stored. */
  function Startup(
    svc: TrellisService,
    load: string -> Result<PipelineHandle>,
    toDevice: PipelineHandle -> Outcome): (t: Transition)
    ensures SameConfiguration(t.service, svc)
    ensures load(svc.settings.trellisModelId).Ok? ==>
      IsReady(t.service) && t.service.pipeline.value == load(svc.settings.trellisModelId).value
    ensures load(svc.settings.trellisModelId).Ok? ==>
      t.raised == toDevice(load(svc.settings.trellisModelId).value)
    ensures load(svc.settings.trellisModelId).Err? ==>
      t.service == svc && t.raised == Fail(load(svc.settings.trellisModelId).error)
  {
    match load(svc.settings.trellisModelId)
    case Err(e) => Transition(svc, Fail(e))
    case Ok(handle) =>
      var loaded := svc.(pipeline := Some(handle));
      Transition(loaded, toDevice(handle))
  }

  /** `shutdown`: drop the handle, whatever state the service was in. */
  function Shutdown(svc: TrellisService): (s: TrellisService)
    ensures !IsReady(s)
    ensures SameConfiguration(s, svc)
  {
    svc.(pipeline := None)
  }

  datatype LifecycleOp =
    | StartupOp(load: string -> Result<PipelineHandle>, toDevice: PipelineHandle -> Outcome)
    | ShutdownOp

  function Apply(svc: TrellisService, op: LifecycleOp): TrellisService {
    match op
    case StartupOp(load, toDevice) => Startup(svc, load, toDevice).service
    case ShutdownOp => Shutdown(svc)
  }

  /** The service after a sequence of lifecycle calls, applied in order. */
  function RunLifecycle(svc: TrellisService, ops: seq<LifecycleOp>): (s: TrellisService)
    ensures SameConfiguration(s, svc)
    decreases |ops|
  {
    if |ops| == 0 then svc
    else Apply(RunLifecycle(svc, ops[..|ops| - 1]), ops[|ops| - 1])
  }

  /** A startup whose model load succeeds for the configured model id. */
  predicate LoadsModel(op: LifecycleOp, modelId: string) {
    op.StartupOp? && op.load(modelId).Ok?
  }

  /** Reference readiness: some startup loaded the model and no shutdown came after it. */
  predicate LoadedSinceLastShutdown(ops: seq<LifecycleOp>, modelId: string) {
    exists i :: 0 <= i < |ops| && LoadsModel(ops[i], modelId) &&
      forall j :: i < j < |ops| ==> !ops[j].ShutdownOp?
  }

  /** The readiness state machine: after any sequence of startups and
      shutdowns from a fresh service, the service is ready exactly when a
      successful load happened after the last shutdown. */
  lemma {:induction false} ReadyAfterLifecycle(settings: Settings, defaults: TrellisParams, ops: seq<LifecycleOp>)
    ensures IsReady(RunLifecycle(NewService(settings, defaults), ops))
        <==> LoadedSinceLastShutdown(ops, settings.trellisModelId)
    decreases |ops|
  {
    var id := settings.trellisModelId;
    if |ops| == 0 {
      assert !LoadedSinceLastShutdown(ops, id);
    } else {
      var n := |ops| - 1;
      var prefix := ops[..n];
      var prev := RunLifecycle(NewService(settings, defaults), prefix);
      ReadyAfterLifecycle(settings, defaults, prefix);
      assert prev.settings.trellisModelId == id;
      match ops[n]
      case ShutdownOp =>
        assert !LoadedSinceLastShutdown(ops, id);
      case StartupOp(load, toDevice) =>
        if load(id).Ok? {
          assert LoadsModel(ops[n], id);
        } else {
          assert RunLifecycle(NewService(settings, defaults), ops) == prev;
          if LoadedSinceLastShutdown(ops, id) {
            var i :| 0 <= i < |ops| && LoadsModel(ops[i], id) &&
              forall j :: i < j < |ops| ==> !ops[j].ShutdownOp?;
            assert i < n && prefix[i] == ops[i];
            assert forall j :: i < j < n ==> prefix[j] == ops[j];
            assert LoadedSinceLastShutdown(prefix, id);
          }
          if LoadedSinceLastShutdown(prefix, id) {
            var i :| 0 <= i < n && LoadsModel(prefix[i], id) &&
              forall j :: i < j < n ==> !prefix[j].ShutdownOp?;
            assert ops[i] == prefix[i];
            assert forall j :: i < j < n ==> ops[j] == prefix[j];
            assert LoadedSinceLastShutdown(ops, id);
          }
        }
    }
  }

  // ---------------------------------------------------------------------
  // Generation
  // ---------------------------------------------------------------------

  /** PIL's `image.convert("RGB")`: the pixel data is loaded first, whatever
      the mode, and a failing load raises; a loaded RGB image is copied
      unchanged, and any other mode is recoded, which may raise as well. */
  function ConvertRgb(img: Image, pil: PilCodec): (r: Result<Image>)
    ensures pil.load(img).Fail? ==> r == Err(pil.load(img).error)
    ensures pil.load(img).Pass? && img.mode == Rgb ==> r == Ok(img)
    ensures pil.load(img).Pass? && img.mode != Rgb ==>
      (r.Ok? <==> pil.recode(img).Ok?) &&
      (pil.recode(img).Err? ==> r == Err(pil.recode(img).error)) &&
      (pil.recode(img).Ok? ==> r.value.pixels == pil.recode(img).value)
    ensures r.Ok? ==> r.value.mode == Rgb && r.value.width == img.width && r.value.height == img.height
  {
    match pil.load(img)
    case Fail(e) => Err(e)
    case Pass =>
      if img.mode == Rgb then Ok(img)
      else
        match pil.recode(img)
        case Err(e) => Err(e)
        case Ok(pixels) => Ok(Image(Rgb, img.width, img.height, pixels))
  }

  /** Image `k` is the first whose conversion raises, and it raises `e`. */
  predicate FirstFailure(images: seq<Image>, pil: PilCodec, k: int, e: Error) {
    0 <= k < |images| && ConvertRgb(images[k], pil) == Err(e) &&
    forall j :: 0 <= j < k ==> ConvertRgb(images[j], pil).Ok?
  }

  /** The list comprehension converting every request image to RGB, in
      order: it succeeds when every conversion does, and otherwise raises the
      error of the first image that fails. */
  function NormaliseImages(images: seq<Image>, pil: PilCodec): (r: Result<seq<Image>>)
    ensures r.Ok? <==> forall i :: 0 <= i < |images| ==> ConvertRgb(images[i], pil).Ok?
    ensures r.Ok? ==> |r.value| == |images|
    ensures r.Ok? ==> forall i :: 0 <= i < |images| ==> r.value[i] == ConvertRgb(images[i], pil).value
    ensures r.Ok? ==> forall i :: 0 <= i < |images| ==> r.value[i].mode == Rgb
    ensures r.Err? ==> exists k :: FirstFailure(images, pil, k, r.error)
    decreases |images|
  {
    if |images| == 0 then Ok([])
    else
      match ConvertRgb(images[0], pil)
      case Err(e) =>
        assert FirstFailure(images, pil, 0, e);
        Err(e)
      case Ok(first) =>
        var rest := NormaliseImages(images[1..], pil);
        assert forall i :: 1 <= i < |images| ==> images[i] == images[1..][i - 1];
        match rest
        case Err(e) =>
          var k :| FirstFailure(images[1..], pil, k, e);
          assert FirstFailure(images, pil, k + 1, e);
          Err(e)
        case Ok(tail) => Ok([first] + tail)
  }

  /** The images a pipeline call hands to the neural pipeline. */
  function CallImages(c: PipelineCall): seq<Image> {
    match c
    case Run(image, _, _, _, _, _, _) => [image]
    case RunMultiImage(images, _, _, _, _, _, _, _) => images
  }

  function StructureSampler(params: TrellisParams): SamplerParams {
    SamplerParams(params.sparseStructureSteps, params.sparseStructureCfgStrength)
  }

  function DetailSampler(params: TrellisParams): SamplerParams {
    SamplerParams(params.slatSteps, params.slatCfgStrength)
  }

  /** The dispatch on the number of images: one image goes to `run`, more
      go to `run_multi_image` in multidiffusion mode. Both carry the
      request seed, the two sampler parameter sets, the oversampling factor,
      `formats=["gaussian"]` and `preprocess_image=False`. */
  function DispatchCall(images: seq<Image>, seed: int, params: TrellisParams): (c: PipelineCall)
    requires |images| > 0
    ensures c.Run? <==> |images| == 1
    ensures c.RunMultiImage? ==> c.mode == FusionMode
    ensures CallImages(c) == images
    ensures c.seed == seed && c.numOversamples == params.numOversamples
    ensures c.sparseStructure.steps == params.sparseStructureSteps
    ensures c.sparseStructure.cfgStrength == params.sparseStructureCfgStrength
    ensures c.slat.steps == params.slatSteps && c.slat.cfgStrength == params.slatCfgStrength
    ensures c.formats == [GaussianFormat] && !c.preprocessImage
  {
    var structure := StructureSampler(params);
    var detail := DetailSampler(params);
    if |images| == 1 then
      Run(images[0], seed, structure, detail, false, [GaussianFormat], params.numOversamples)
    else
      RunMultiImage(images, seed, structure, detail, false, [GaussianFormat], params.numOversamples, FusionMode)
  }

  /** The single-image and multi-image paths differ only in which entry point
      and images they use: every other argument agrees. */
  lemma DispatchPathsAgree(one: seq<Image>, many: seq<Image>, seed: int, params: TrellisParams)
    requires |one| == 1 && |many| > 1
    ensures DispatchCall(one, seed, params).Run? && DispatchCall(many, seed, params).RunMultiImage?
    ensures var a, b := DispatchCall(one, seed, params), DispatchCall(many, seed, params);
      a.seed == b.seed && a.sparseStructure == b.sparseStructure && a.slat == b.slat &&
      a.preprocessImage == b.preprocessImage && a.formats == b.formats &&
      a.numOversamples == b.numOversamples
  {
  }

  /** The guards before any pipeline work, in the order `generate` checks
      them: not loaded fails first, then an RGB conversion that raises, then
      an empty image list fails at `images[0]`. On success, the handle and
      the call to make. */
  function PrepareCall(svc: TrellisService, req: TrellisRequest, params: TrellisParams, pil: PilCodec)
    : (r: Result<(PipelineHandle, PipelineCall)>)
    ensures !IsReady(svc) ==> r == Err(RuntimeError(NotLoadedMessage))
    ensures IsReady(svc) && NormaliseImages(req.images, pil).Err? ==>
      r == Err(NormaliseImages(req.images, pil).error)
    ensures IsReady(svc) && NormaliseImages(req.images, pil).Ok? && |req.images| == 0 ==>
      r == Err(IndexError(ListIndexMessage))
    ensures r.Ok? <==> IsReady(svc) && NormaliseImages(req.images, pil).Ok? && |req.images| > 0
    ensures r.Ok? ==>
      r.value == (svc.pipeline.value, DispatchCall(NormaliseImages(req.images, pil).value, req.seed, params))
    ensures r.Ok? ==> forall im :: im in CallImages(r.value.1) ==> im.mode == Rgb
  {
    if svc.pipeline.None? then Err(RuntimeError(NotLoadedMessage))
    else
      match NormaliseImages(req.images, pil)
      case Err(e) => Err(e)
      case Ok(images) =>
        if |images| == 0 then Err(IndexError(ListIndexMessage))
        else Ok((svc.pipeline.value, DispatchCall(images, req.seed, params)))
  }

  /** `outputs["gaussian"][0]`. */
  function FirstGaussian(outputs: Outputs): (r: Result<GaussianCloud>)
    ensures r.Ok? <==> GaussianFormat in outputs && |outputs[GaussianFormat]| > 0
    ensures r.Ok? ==> r.value == outputs[GaussianFormat][0]
    ensures GaussianFormat !in outputs ==> r == Err(KeyError(GaussianFormat))
    ensures GaussianFormat in outputs && |outputs[GaussianFormat]| == 0 ==> r == Err(IndexError(ListIndexMessage))
  {
    if GaussianFormat !in outputs then Err(KeyError(GaussianFormat))
    else if |outputs[GaussianFormat]| == 0 then Err(IndexError(ListIndexMessage))
    else Ok(outputs[GaussianFormat][0])
  }

  /** Run the pipeline, pick the first Gaussian output and serialise it;
      every failure carries its original cause. */
  function Invoke(handle: PipelineHandle, call: PipelineCall, backend: TrellisBackend): Result<Bytes> {
    match backend.run(handle, call)
    case Err(e) => Err(e)
    case Ok(outputs) =>
      match FirstGaussian(outputs)
      case Err(e) => Err(e)
      case Ok(g) => backend.savePly(g)
  }

  /** `TrellisService.generate` as the Python code is written. Its `finally`
      block tests `buffer`, which is bound only after the Gaussian output has
      been extracted: when the pipeline call or the extraction raises, the
      unbound local raises `UnboundLocalError` in place of the original error.
      Everything else agrees with the corrected `Generate`. */
  function GenerateAsWritten(svc: TrellisService, req: TrellisRequest, params: TrellisParams, backend: TrellisBackend)
    : (g: Generation)
    ensures g.call == Generate(svc, req, params, backend).call
    ensures g.call.None? ==> g == Generate(svc, req, params, backend)
    ensures g.call.Some? ==>
      var out := backend.run(svc.pipeline.value, g.call.value);
      (out.Err? || FirstGaussian(out.value).Err? ==> g.result == Err(UnboundLocalError("buffer"))) &&
      (out.Ok? && FirstGaussian(out.value).Ok? ==> g == Generate(svc, req, params, backend))
  {
    match PrepareCall(svc, req, params, backend.pil)
    case Err(e) => Generation(None, Err(e))
    case Ok((handle, call)) =>
      var result :=
        match backend.run(handle, call)
        case Err(_) => Err(UnboundLocalError("buffer"))
        case Ok(outputs) =>
          match FirstGaussian(outputs)
          case Err(_) => Err(UnboundLocalError("buffer"))
          case Ok(gaussian) =>
            match backend.savePly(gaussian)
            case Err(e) => Err(e)
            case Ok(bytes) => Ok(TrellisResult(bytes));
      Generation(Some(call), result)
  }

  /** `TrellisService.generate` with the original error propagated: the
      guards run before any pipeline call, the call is the dispatch of the
      RGB-normalised images, every failure after it carries its own error,
      and a success holds exactly the PLY bytes of the first Gaussian output. */
  function Generate(svc: TrellisService, req: TrellisRequest, params: TrellisParams, backend: TrellisBackend)
    : (g: Generation)
    ensures !IsReady(svc) ==> g == Generation(None, Err(RuntimeError(NotLoadedMessage)))
    ensures IsReady(svc) && NormaliseImages(req.images, backend.pil).Err? ==>
      g == Generation(None, Err(NormaliseImages(req.images, backend.pil).error))
    ensures IsReady(svc) && NormaliseImages(req.images, backend.pil).Ok? && |req.images| == 0 ==>
      g == Generation(None, Err(IndexError(ListIndexMessage)))
    ensures IsReady(svc) && NormaliseImages(req.images, backend.pil).Ok? && |req.images| > 0 ==>
      g.call == Some(DispatchCall(NormaliseImages(req.images, backend.pil).value, req.seed, params))
    ensures g.call.Some? ==> forall im :: im in CallImages(g.call.value) ==> im.mode == Rgb
    ensures g.call.Some? ==>
      var out := backend.run(svc.pipeline.value, g.call.value);
      (out.Err? ==> g.result == Err(out.error)) &&
      (out.Ok? && FirstGaussian(out.value).Err? ==> g.result == Err(FirstGaussian(out.value).error)) &&
      (out.Ok? && FirstGaussian(out.value).Ok? ==>
        var saved := backend.savePly(out.value[GaussianFormat][0]);
        (saved.Err? ==> g.result == Err(saved.error)) &&
        (saved.Ok? ==> g.result == Ok(TrellisResult(saved.value))))
  {
    match PrepareCall(svc, req, params, backend.pil)
    case Err(e) => Generation(None, Err(e))
    case Ok((handle, call)) =>
      var result :=
        match Invoke(handle, call, backend)
        case Err(e) => Err(e)
        case Ok(bytes) => Ok(TrellisResult(bytes));
      Generation(Some(call), result)
  }

  /** As written, a failing pipeline call, a missing "gaussian" output or an
      empty one surfaces as `UnboundLocalError` and its own error is lost;
      the corrected `Generate` returns it. */
  lemma PipelineErrorMasked(svc: TrellisService, req: TrellisRequest, params: TrellisParams, backend: TrellisBackend)
    requires PrepareCall(svc, req, params, backend.pil).Ok?
    requires var (handle, call) := PrepareCall(svc, req, params, backend.pil).value;
      backend.run(handle, call).Err? || FirstGaussian(backend.run(handle, call).value).Err?
    ensures GenerateAsWritten(svc, req, params, backend).result == Err(UnboundLocalError("buffer"))
    ensures var (handle, call) := PrepareCall(svc, req, params, backend.pil).value;
      var out := backend.run(handle, call);
      Generate(svc, req, params, backend).result ==
        if out.Err? then Err(out.error) else Err(FirstGaussian(out.value).error)
  {
  }

  /** Concrete instances: a pipeline that raises "CUDA out of memory", and
      one that returns no "gaussian" output, are both reported as an unbound
      local by the code as written. */
  lemma PipelineErrorMaskedExample()
    ensures var svc := TrellisService(Settings(0, "trellis"), 0, TrellisParams(12, 7.5, 12, 3.0, 3),
                                      Some(PipelineHandle("trellis", 0)));
      var req := TrellisRequest([Image(Rgb, 1, 1, [0, 0, 0])], 42);
      var failing := TrellisBackend(PilCodec((img: Image) => Pass, (img: Image) => Ok(img.pixels)),
                                    (h, c) => Err(Raised("CUDA out of memory")),
                                    g => Ok([]));
      var formatless := TrellisBackend(PilCodec((img: Image) => Pass, (img: Image) => Ok(img.pixels)),
                                       (h, c) => Ok(map[]),
                                       g => Ok([]));
      GenerateAsWritten(svc, req, TrellisParams(12, 7.5, 12, 3.0, 3), failing).result
        == Err(UnboundLocalError("buffer")) &&
      Generate(svc, req, TrellisParams(12, 7.5, 12, 3.0, 3), failing).result
        == Err(Raised("CUDA out of memory")) &&
      GenerateAsWritten(svc, req, TrellisParams(12, 7.5, 12, 3.0, 3), formatless).result
        == Err(UnboundLocalError("buffer")) &&
      Generate(svc, req, TrellisParams(12, 7.5, 12, 3.0, 3), formatless).result
        == Err(KeyError(GaussianFormat))
  {
  }
}
